=== FILE: README.md ===
# Company data front-end: a Dafny model of its view logic

The front-end shows "company" records (name, revenue, profit, employees,
country) from a remote REST service. It has three views with real state:

- the **record table** (`DataTable.jsx`). It loads the collection, edits it
  through an inline create/edit form, and deletes after confirmation. It also
  drives the **generation controller**: a repeating task that asks the server
  for batches of synthetic records and appends them until stopped;
- the **charts view** (`Charts.jsx`). It fetches one aggregate payload on
  mount and reshapes it into one of seven chart projections, chosen by a
  selector;
- the **upload view** (`FileUpload.jsx`). It sends one spreadsheet file to the
  bulk-import endpoint.

Each view is modelled as an immutable state record with pure handler
functions. A handler takes the user's action, or the settled outcome of its
remote call (`Common.Outcome`), and returns a `Step`: the new state plus the
effects it triggered, in order (`Effects.Effect`). Effects are remote
requests, intervals set or cleared, and a delayed redirect.
`Effects.Schedule` plays the browser's table of live intervals. Each live
interval is recorded with the request it repeats, which models the closure
`setInterval` captured.

Modules:

- `Common`: `Option`, `Outcome`, and generic `Map`/`Filter` with index-wise
  contracts.
- `Records`: `Company`, plus delete-by-id (`RemoveId`) and update-by-id
  (`ReplaceId`).
- `Forms`: the form draft and its five fields.
- `Effects`: requests, effects, the interval table.
- `Generation`: the controller on its own (start, stop, tear-down, the count
  input).
- `DataTable`: the record table's state and every handler.
- `DataTablePage`: the table plus the browser's intervals under any sequence
  of events. This module proves that at most one repeating task ever exists
  and that none survives tear-down.
- `Charts`: the payload, the projections, the selector, the render guards and
  the fetch.
- `FileUpload`: the upload form.

Behaviour of the code that the model keeps on purpose:

- `parseInt(..) || 1` turns only an unparsable entry or 0 into 1. A negative
  entry is kept (`Generation.CountFromInput`).
- The start handler has no guard of its own. Only the swap of the Start
  button for the Stop button keeps a start while running unreachable, so
  `DataTablePage.Dispatch` ignores a start click while generating.
  `Generation.StartWhileRunningOrphans` shows what the handler alone would
  do: leave an interval running with no handle to clear it.
- Delete keeps only the records whose id differs, so it removes every record
  carrying the id (`Records.RemoveId`). With unique ids that is one entry
  (`Records.RemoveUniqueId`).
- The "no data" guard tests only the company list. An empty `country_data`
  beside a non-empty company list draws an empty country chart
  (`Charts.Render`).
- The handlers validate nothing. Only the inputs' `required`/`min`
  attributes do, inside the browser (see Left out).
- Update mode is chosen by the truthiness of `editingId`, so an id of 0
  would create a new record instead of updating (`DataTable.Editing`).

## Model

| member | source | states |
|---|---|---|
| `Records.RemoveId` | frontend/src/pages/DataTable.jsx:96 | after a successful delete, exactly the records whose id differs from the deleted id remain |
| `Records.RemoveIdKeepsOrder` | frontend/src/pages/DataTable.jsx:96 | delete keeps the remaining records in their original relative order |
| `Records.RemoveUniqueId` | frontend/src/pages/DataTable.jsx:96 | with unique ids, deleting the id at position k removes exactly that entry and no other |
| `Records.RemoveIdPartition` | frontend/src/pages/DataTable.jsx:96 | kept records plus records carrying the id are the original collection: nothing else is lost |
| `Records.ReplaceId` | frontend/src/pages/DataTable.jsx:124-126 | update keeps the length, puts the server record at every position carrying the id, leaves the rest untouched |
| `Records.ReplaceUniqueId` | frontend/src/pages/DataTable.jsx:124-126 | with unique ids, updating the record at position k is a single-position update |
| `Records.ReplaceThenRemove` | frontend/src/pages/DataTable.jsx:124-126 | an update does not change any record other than the one carrying the id |
| `Forms.Set` | frontend/src/pages/DataTable.jsx:102-108 | a field change sets the named field and keeps every other field |
| `Forms.SetLaws` | frontend/src/pages/DataTable.jsx:102-108 | writing a field's own value is a no-op; a later change of a field overrides an earlier one |
| `Forms.DraftExtensional` | frontend/src/pages/DataTable.jsx:13-19 | the five named fields are the whole draft |
| `Forms.FromCompany` | frontend/src/pages/DataTable.jsx:79-85 | editing starts from a draft whose every field shows the record's value |
| `Effects.SentAppend` | frontend/src/pages/DataTable.jsx:49-57 | requests are reported in the order the handler triggers them: the requests of two effect runs in sequence are the first run's followed by the second's |
| `Generation.CountFromInput` | frontend/src/pages/DataTable.jsx:177 | the count is never 0: unparsable input or 0 becomes 1, other parsed values are kept |
| `Generation.Start` | frontend/src/pages/DataTable.jsx:49-57 | start raises the flag, sends one batch request at once, adds exactly one interval repeating it, and keeps its handle |
| `Generation.Stop` | frontend/src/pages/DataTable.jsx:59-65 | stop clears and forgets a held interval, lowers the flag, sends nothing |
| `Generation.Teardown` | frontend/src/pages/DataTable.jsx:27-32 | unmount clears the held interval, if any, and sends nothing |
| `Generation.AtMostOneTask` | frontend/src/pages/DataTable.jsx:49-65 | while controller and browser agree, at most one interval is live, and one is live exactly while generating |
| `Generation.StartFromIdle` | frontend/src/pages/DataTable.jsx:49-57 | start from idle leaves controller and browser in agreement |
| `Generation.StopEndsRun` | frontend/src/pages/DataTable.jsx:59-65 | stop leaves no interval live and keeps the agreement |
| `Generation.StopIdempotent` | frontend/src/pages/DataTable.jsx:59-65 | stopping twice equals stopping once; the second stop has no effect |
| `Generation.TeardownLeavesNoTimer` | frontend/src/pages/DataTable.jsx:27-32 | tear-down of an agreeing controller leaves no interval live |
| `Generation.StartWhileRunningOrphans` | frontend/src/pages/DataTable.jsx:56 | a start while running would overwrite the handle and leave two intervals live, one unreachable |
| `DataTable.BeginLoad` | frontend/src/pages/DataTable.jsx:35-38 | a load raises the loading flag and its one effect is the list request, changing nothing else |
| `DataTable.LoadSettled` | frontend/src/pages/DataTable.jsx:35-47 | success replaces the collection and clears the error; failure sets the error and keeps the old records; loading ends either way |
| `DataTable.FailedLoadKeepsRows` | frontend/src/pages/DataTable.jsx:41-45 | a failed load keeps whatever rows are held and shows them under the error banner |
| `DataTable.StartGeneration` | frontend/src/pages/DataTable.jsx:49-57 | the Generate button starts a run requesting the current count, adds exactly one interval repeating that request to the browser's table, and touches only the controller |
| `DataTable.StopGeneration` | frontend/src/pages/DataTable.jsx:59-65 | the Stop button idles the controller, removes the held interval (if any) from the browser's table, and touches nothing else |
| `DataTable.BatchSettled` | frontend/src/pages/DataTable.jsx:67-75 | a batch is appended after the existing records in response order; a failed batch is exactly the Stop button's step, so its interval is cleared and the collection kept |
| `DataTable.CountChanged` | frontend/src/pages/DataTable.jsx:172-180 | the count cannot change while generating (the input is disabled); otherwise it takes the parsed value |
| `DataTable.ResetForm` | frontend/src/pages/DataTable.jsx:140-150 | reset empties every field, clears the edited id, hides the form, and changes nothing else |
| `DataTable.ToggleForm` | frontend/src/pages/DataTable.jsx:161-166 | the Add/Hide button clears the form and flips its visibility |
| `DataTable.FormButtonsUndo` | frontend/src/pages/DataTable.jsx:140-166 | two Add/Hide clicks restore the visibility with the form cleared; Cancel after a toggle or a Cancel is Cancel alone |
| `DataTable.Edit` | frontend/src/pages/DataTable.jsx:77-87 | the Edit button opens the form on that record's id and values |
| `DataTable.FieldChanged` | frontend/src/pages/DataTable.jsx:102-108 | an input change updates only the named draft field |
| `DataTable.SubmitRequest` | frontend/src/pages/DataTable.jsx:121-131 | a submit sends an update of the edited id iff the id is truthy, a create otherwise, both with the draft |
| `DataTable.Submit` | frontend/src/pages/DataTable.jsx:110-138 | on success, update replaces by id (length kept, others untouched) or create appends at the end, and the form is reset; on failure nothing changes; either way exactly the one request is sent and no timer is touched |
| `DataTable.Delete` | frontend/src/pages/DataTable.jsx:89-100 | nothing is sent without confirmation; on success every record with the id is removed and nothing else changes; on failure nothing changes |
| `DataTable.View` | frontend/src/pages/DataTable.jsx:152-154 | the loading screen shows iff loading with no records; otherwise the rows are the collection and the banner shows iff there is an error |
| `DataTable.Editing` | frontend/src/pages/DataTable.jsx:121 | update mode holds for a present non-zero id and for nothing else: no id and id 0 both mean create |
| `DataTable.FormHeading` | frontend/src/pages/DataTable.jsx:204 | the heading is "Edit Company" exactly when the id is truthy, "Add New Company" exactly when it is not |
| `DataTable.HeadingMatchesRequest` | frontend/src/pages/DataTable.jsx:204 | the form is headed "Edit Company" exactly when its submit sends an update |
| `DataTable.EditThenSubmitReplaces` | frontend/src/pages/DataTable.jsx:121-126 | editing a record (non-zero unique id) and saving replaces it at its own position |
| `DataTable.CreateThenDelete` | frontend/src/pages/DataTable.jsx:128-130 | a create appends the server record and nothing else: deleting its (fresh) id restores the earlier collection |
| `DataTablePage.Mounted` | frontend/src/pages/DataTable.jsx:24-25 | carrying out the mount step's effects starts a load of the list and leaves no interval live |
| `DataTablePage.Unmount` | frontend/src/pages/DataTable.jsx:28-32 | the unmount cleanup sends no request |
| `DataTablePage.Dispatch` | frontend/src/pages/DataTable.jsx:182-196 | each event runs its own handler: a load settles, a batch is appended or stops the run, a delete or save reaches the table, an input or form button changes the view; a click on the hidden Start or Stop button does nothing; Start from idle adds exactly one interval repeating the current count and Stop removes the held one; a firing interval sends the request it holds and changes nothing |
| `DataTablePage.DispatchKeepsInv` | frontend/src/pages/DataTable.jsx:182-196 | every event, with Start shown only while idle and Stop only while generating, keeps controller and browser in agreement |
| `DataTablePage.RunKeepsInv` | frontend/src/pages/DataTable.jsx:49-75 | any sequence of events keeps controller and browser in agreement |
| `DataTablePage.NoOrphanedInterval` | frontend/src/pages/DataTable.jsx:27-32 | after any events from mount, at most one interval is live and tear-down leaves none |
| `DataTablePage.TickRequestsCurrentCount` | frontend/src/pages/DataTable.jsx:176-178 | every tick of a run requests the count currently shown |
| `DataTablePage.StartClickedKeepsOneTask` | frontend/src/pages/DataTable.jsx:182-196 | clicking Start never leaves two intervals live |
| `DataTablePage.BatchFailureEndsRun` | frontend/src/pages/DataTable.jsx:71-74 | a failed batch cancels the repeating task and ends generation |
| `DataTablePage.StartThenTick` | frontend/src/pages/DataTable.jsx:49-57 | a start requests a batch at once and the new interval's first tick requests the same batch again, in that order |
| `DataTablePage.OnlyGenerationTouchesIntervals` | frontend/src/pages/DataTable.jsx:35-138 | loads, successful batches, deletes, saves and form edits leave the browser's intervals as they were |
| `Charts.LookupAt` | frontend/src/pages/Charts.jsx:124 | with distinct keys, looking up entry i's country finds entry i's aggregates |
| `Charts.Lookup` | frontend/src/pages/Charts.jsx:124 | `country_data[key]` is missing exactly when no entry has the key; when present it is the aggregates of an entry with that key |
| `Charts.CompanyBars` | frontend/src/pages/Charts.jsx:67-70 | labels, revenue and profit series each have one entry per company, index-aligned with the companies |
| `Charts.CountryChart` | frontend/src/pages/Charts.jsx:122-124 | country charts (also lines 169-171, 218-220, 267-269) label by the object's keys; with distinct keys value i is entry i's chosen aggregate |
| `Charts.SingleCountryBar` | frontend/src/pages/Charts.jsx:122-124 | one country with company count 3 gives one bar labelled with it, value 3 |
| `Charts.Scatter` | frontend/src/pages/Charts.jsx:316-320 | one point per company, x its revenue and y its profit |
| `Charts.ScatterMatchesBars` | frontend/src/pages/Charts.jsx:316-320 | scatter point i is company bar i's revenue against its profit |
| `Charts.HighRevenue` | frontend/src/pages/Charts.jsx:379-381 | keeps exactly the entries whose revenue strictly exceeds 20000 |
| `Charts.HighRevenueKeepsOrder` | frontend/src/pages/Charts.jsx:379-381 | the revenue filter preserves order |
| `Charts.HighRevenueStable` | frontend/src/pages/Charts.jsx:379-381 | a list already above the threshold passes unchanged; filtering twice is filtering once |
| `Charts.ThresholdIsStrict` | frontend/src/pages/Charts.jsx:380 | a company at exactly 20000 is dropped |
| `Charts.HighRevenueBars` | frontend/src/pages/Charts.jsx:378-384 | labels and employee counts are aligned with the filtered list |
| `Charts.Choose` | frontend/src/pages/Charts.jsx:429-448 | each of the seven keys selects its own chart; any other key falls back to the company bars |
| `Charts.ChooseKeyRoundTrip` | frontend/src/pages/Charts.jsx:455-496 | each selector button selects the chart it names, and the seven keys are distinct |
| `Charts.Key` | frontend/src/pages/Charts.jsx:455-496 | every selector button's key is one of the seven the chart switch knows |
| `Charts.Project` | frontend/src/pages/Charts.jsx:429-448 | each selection draws its own projection: company bars and the scatter from the company list, the four country charts from `country_data` with their aggregate, the employee bars from the high-revenue list |
| `Charts.Render` | frontend/src/pages/Charts.jsx:54-64 | guards in order: loading, then error, then a missing/empty company list gives "no data", else the projection of the selected key over the stored payload |
| `Charts.NoDataForEverySelection` | frontend/src/pages/Charts.jsx:62-64 | a payload with zero companies shows "no data" for every selection |
| `Charts.Mount` | frontend/src/pages/Charts.jsx:37-39 | mounting raises loading and its one effect is the payload request |
| `Charts.FetchSettled` | frontend/src/pages/Charts.jsx:41-52 | loading ends either way; success stores the payload, failure sets the error; the selection is kept |
| `Charts.Select` | frontend/src/pages/Charts.jsx:455-458 | a selector button stores that button's key, so the chart it names is chosen, and changes nothing else |
| `Charts.Dispatch` | frontend/src/pages/Charts.jsx:41-52 | after mount nothing is sent: the fetch settling runs the settle handler and a selector button (lines 455-496) runs the select handler |
| `Charts.InitialState` | frontend/src/pages/Charts.jsx:31-35 | the view starts on the loading screen with the company bars selected, so a non-empty payload first shows the company bars |
| `Charts.FetchOnlyOnMount` | frontend/src/pages/Charts.jsx:37-39 | no event after mount sends a request; selecting changes nothing but the selection |
| `Charts.SettledFetchShows` | frontend/src/pages/Charts.jsx:49-60 | after the fetch, loading is never shown again; a failed fetch shows its error for every selection |
| `FileUpload.ChooseFile` | frontend/src/pages/FileUpload.jsx:13-16 | choosing a file stores it and clears the error |
| `FileUpload.ChooseThenSubmit` | frontend/src/pages/FileUpload.jsx:13-28 | picking a file while idle enables the button, and the submit sends exactly that file |
| `FileUpload.InitialCannotSubmit` | frontend/src/pages/FileUpload.jsx:7-10 | the view starts with no file, a disabled button, and a submit that only reports the missing file |
| `FileUpload.CanSubmit` | frontend/src/pages/FileUpload.jsx:83 | the upload button is enabled iff no upload is in flight and a file is chosen; an enabled submit sends that file and starts loading |
| `FileUpload.Submit` | frontend/src/pages/FileUpload.jsx:18-28 | without a file the error says so and nothing happens; with a file the messages clear, loading starts, and the upload request is the only effect (no redirect before it settles) |
| `FileUpload.UploadErrorMessage` | frontend/src/pages/FileUpload.jsx:39 | the failure message is the server's non-empty error text, else "Error uploading file" |
| `FileUpload.UploadSettled` | frontend/src/pages/FileUpload.jsx:30-43 | success sets the success message and schedules the redirect; failure sets the error message; loading ends either way |
| `FileUpload.EnabledSubmitSendsOnce` | frontend/src/pages/FileUpload.jsx:80-84 | a submit the enabled button allows sends the file once and disables the button |
| `FileUpload.AttemptEndsSettled` | frontend/src/pages/FileUpload.jsx:26-43 | after submit and settle, loading is off, exactly one message is set, and the button is enabled again |

## Left out

- The HTTP client (`services/api.js`) is not modelled. Each call is a
  `Request` value, and its response is an `Outcome` argument of the handler
  that awaits it.
- Routing, the navigation bar and the home page carry no logic and are not
  modelled.
- Chart.js registration, chart options, colours, JSX markup and
  `toLocaleString` formatting are presentation done by a library and are not
  modelled.
- Real time is not modelled: the 2000 ms interval and the 2000 ms redirect
  delay. An interval is a `SetInterval` effect and a firing is an event. The
  redirect is a `RedirectLater` effect.
- `window.confirm` is a boolean argument of `DataTable.Delete`.
- `parseFloat`/`parseInt` on text are not modelled. Revenue and profit are
  `real`, employees an `int`, and the count input arrives already parsed
  (`Generation.ParsedInt`). The conversion of the draft's text fields before
  a create or update is not modelled: the request carries the draft.
- Records arrive as parsed values. When editing starts, the server's JSON
  form of decimal amounts (possibly a string) is not modelled.
- Validation by the browser from the inputs' `required`/`min`/`max`
  attributes happens before the submit handler runs, so it is not modelled.
- Async interleavings are not modelled. Each handler is one atomic step, so
  overlapping requests and responses arriving out of order are out of scope.
  Delete and submit compute from the render-time collection rather than the
  latest one; with one step at a time the two coincide. A batch response that
  arrives after stop is appended, as `BatchSettled` does for any success.
- `console.error` logging is not modelled.
- A payload whose `companies` list is non-empty but whose `country_data` or
  `high_revenue_companies` is missing is not modelled. The source would throw
  while rendering. Both are modelled as always present, and only
  `companies` may be missing.
- JavaScript's ordering of integer-like object keys ahead of other keys is
  not modelled; `country_data` is a sequence of entries in key order.
- A server `error` field that is not a string is not modelled; the server
  error is an optional string.
- `Charts.CountryChart`: the link between value i and entry i is stated only
  for distinct keys. Every object decoded from JSON has distinct keys.
- The server is assumed never to assign id 0; the server is not part of
  this model. A record with id 0 would be re-created on save instead of
  updated, because 0 is not truthy (`DataTable.Editing` states this case).
  Under the assumption the case does not arise.
- The page models accept events the rendered page cannot produce. Clicks
  arrive while the loading screen shows no buttons. A load can settle more
  than once, though the table loads only on mount. A save can come while
  the form is hidden. In the charts view, a selection can come while the
  selector is not rendered. Only the Start/Stop swap is modelled as a
  guard. The page-level properties hold after any sequence of events, so
  admitting more sequences than a user can produce only makes them
  stronger.

=== FILE: charts.dfy ===
/** The charts view: one aggregate payload fetched on mount, reshaped into
    one of seven chart projections chosen by a selector. Only the data each
    chart is given is modelled (labels, series, points), not its options. */
module Charts {
  import opened Common
  import opened Records
  import opened Effects

  /** The message shown when fetching the payload fails. */
  const LoadError: string := "Failed to load chart data"

  /** Revenue a company must strictly exceed to appear in the high-revenue
      employee chart. */
  const HighRevenueThreshold: real := 20000.0

  /** Per-country aggregates of the payload's `country_data` object. */
  datatype CountryStats = CountryStats(
    companyCount: int,
    totalRevenue: real,
    totalProfit: real,
    totalEmployees: int)

  /** One key of `country_data` with its aggregates; the object is a sequence
      of entries in key order. */
  datatype CountryEntry = CountryEntry(country: string, stats: CountryStats)

  /** The aggregate payload. `companies` may be missing. */
  datatype ChartPayload = ChartPayload(
    companies: Option<seq<Company>>,
    countryData: seq<CountryEntry>,
    highRevenueCompanies: seq<Company>)

  /** The keys of an object are distinct. */
  ghost predicate DistinctCountries(entries: seq<CountryEntry>)
  {
    forall i, j :: 0 <= i < j < |entries| ==> entries[i].country != entries[j].country
  }

  /** The four aggregates a country chart can show. */
  datatype Stat = CompanyCount | TotalRevenue | TotalProfit | TotalEmployees

  function StatValue(st: CountryStats, k: Stat): real
  {
    match k
    case CompanyCount => st.companyCount as real
    case TotalRevenue => st.totalRevenue
    case TotalProfit => st.totalProfit
    case TotalEmployees => st.totalEmployees as real
  }

  /** `country_data[key]`: the aggregates stored under `key`, if any. */
  function Lookup(entries: seq<CountryEntry>, key: string): (r: Option<CountryStats>)
    ensures r.None? <==> forall i :: 0 <= i < |entries| ==> entries[i].country != key
    ensures r.Some? ==> exists i :: 0 <= i < |entries| && entries[i].country == key
                                    && entries[i].stats == r.value
  {
    if |entries| == 0 then None
    else if entries[0].country == key then Some(entries[0].stats)
    else Lookup(entries[1..], key)
  }

  /** With distinct keys, looking up the key of entry `i` finds entry `i`. */
  lemma {:induction false} LookupAt(entries: seq<CountryEntry>, i: int)
    requires DistinctCountries(entries)
    requires 0 <= i < |entries|
    ensures Lookup(entries, entries[i].country) == Some(entries[i].stats)
  {
    if i > 0 {
      assert entries[0].country != entries[i].country;
      assert entries[1..][i - 1] == entries[i];
      LookupAt(entries[1..], i - 1);
    }
  }

  lemma LookupAll(entries: seq<CountryEntry>)
    ensures DistinctCountries(entries) ==>
              forall i :: 0 <= i < |entries| ==> Lookup(entries, entries[i].country) == Some(entries[i].stats)
  {
    if DistinctCountries(entries) {
      forall i | 0 <= i < |entries|
        ensures Lookup(entries, entries[i].country) == Some(entries[i].stats)
      {
        LookupAt(entries, i);
      }
    }
  }

  /** The selector's seven choices. */
  datatype Selection =
    | CompanyBar | CountryBar | RevenuePie | ProfitPie | EmployeesPie
    | RevenueVsProfit | HighRevenueEmployees

  datatype Point = Point(x: real, y: real)

  /** The data handed to the chart library. */
  datatype Chart =
    | TwoSeriesBars(labels: seq<string>, revenue: seq<real>, profit: seq<real>)
    | CountrySeries(stat: Stat, labels: seq<string>, values: seq<real>)
    | ScatterPoints(points: seq<Point>)
    | EmployeeBars(labels: seq<string>, employees: seq<int>)

  /** Which selector choice a chart belongs to. */
  function SelectionOf(c: Chart): Selection
  {
    match c
    case TwoSeriesBars(_, _, _) => CompanyBar
    case CountrySeries(k, _, _) =>
      (match k
       case CompanyCount => CountryBar
       case TotalRevenue => RevenuePie
       case TotalProfit => ProfitPie
       case TotalEmployees => EmployeesPie)
    case ScatterPoints(_) => RevenueVsProfit
    case EmployeeBars(_, _) => HighRevenueEmployees
  }

  // ------------------------------------------------------------ projections

  /** Revenue and profit by company: names as labels and the two series,
      all index-aligned with the companies. */
  function CompanyBars(cs: seq<Company>): (r: Chart)
    ensures r.TwoSeriesBars?
    ensures |r.labels| == |cs| && |r.revenue| == |cs| && |r.profit| == |cs|
    ensures forall i :: 0 <= i < |cs| ==>
              r.labels[i] == cs[i].name && r.revenue[i] == cs[i].revenue && r.profit[i] == cs[i].profit
  {
    TwoSeriesBars(Map((c: Company) => c.name, cs),
                  Map((c: Company) => c.revenue, cs),
                  Map((c: Company) => c.profit, cs))
  }

  /** A per-country chart: the object's keys as labels and, for each key, the
      chosen aggregate stored under it. Labels and values have equal length,
      and with distinct keys value `i` is the aggregate of entry `i`. */
  function CountryChart(k: Stat, entries: seq<CountryEntry>): (r: Chart)
    ensures r.CountrySeries? && r.stat == k
    ensures |r.labels| == |entries| && |r.values| == |entries|
    ensures forall i :: 0 <= i < |entries| ==> r.labels[i] == entries[i].country
    ensures DistinctCountries(entries) ==>
              forall i :: 0 <= i < |entries| ==> r.values[i] == StatValue(entries[i].stats, k)
  {
    var keys := Map((e: CountryEntry) => e.country, entries);
    var value := (key: string) =>
      match Lookup(entries, key)
      case Some(st) => StatValue(st, k)
      case None => 0.0;
    LookupAll(entries);
    CountrySeries(k, keys, Map(value, keys))
  }

  /** Revenue against profit: one point per company, in company order. */
  function Scatter(cs: seq<Company>): (r: Chart)
    ensures r.ScatterPoints? && |r.points| == |cs|
    ensures forall i :: 0 <= i < |cs| ==> r.points[i] == Point(cs[i].revenue, cs[i].profit)
  {
    ScatterPoints(Map((c: Company) => Point(c.revenue, c.profit), cs))
  }

  function AboveThreshold(c: Company): bool
  {
    c.revenue > HighRevenueThreshold
  }

  /** The high-revenue list filtered again on the client: exactly the entries
      whose revenue strictly exceeds the threshold, in their original order. */
  function HighRevenue(hs: seq<Company>): (r: seq<Company>)
    ensures |r| <= |hs|
    ensures forall i :: 0 <= i < |r| ==> r[i] in hs && r[i].revenue > HighRevenueThreshold
    ensures forall i :: 0 <= i < |hs| && hs[i].revenue > HighRevenueThreshold ==> hs[i] in r
  {
    Filter(AboveThreshold, hs)
  }

  /** Employee counts of the high-revenue companies, labels and values
      aligned with the filtered list. */
  function HighRevenueBars(hs: seq<Company>): (r: Chart)
    ensures r.EmployeeBars?
    ensures var kept := HighRevenue(hs);
            && |r.labels| == |kept| && |r.employees| == |kept|
            && forall i :: 0 <= i < |kept| ==>
                 r.labels[i] == kept[i].name && r.employees[i] == kept[i].employees
  {
    var kept := HighRevenue(hs);
    EmployeeBars(Map((c: Company) => c.name, kept), Map((c: Company) => c.employees, kept))
  }

  /** The high-revenue filter keeps order: filtering a concatenation is
      concatenating the filtered parts. */
  lemma HighRevenueKeepsOrder(a: seq<Company>, b: seq<Company>)
    ensures HighRevenue(a + b) == HighRevenue(a) + HighRevenue(b)
  {
    FilterAppend(AboveThreshold, a, b);
  }

  /** A payload already filtered by the server passes through unchanged, and
      filtering twice is filtering once. */
  lemma HighRevenueStable(hs: seq<Company>)
    ensures (forall i :: 0 <= i < |hs| ==> hs[i].revenue > HighRevenueThreshold) ==> HighRevenue(hs) == hs
    ensures HighRevenue(HighRevenue(hs)) == HighRevenue(hs)
  {
    if forall i :: 0 <= i < |hs| ==> hs[i].revenue > HighRevenueThreshold {
      FilterKeepsAll(AboveThreshold, hs);
    }
    FilterIdempotent(AboveThreshold, hs);
  }

  /** A company at exactly the threshold is not shown: the comparison is
      strict. */
  lemma ThresholdIsStrict(c: Company, d: Company)
    requires c.revenue == HighRevenueThreshold && d.revenue == HighRevenueThreshold + 1.0
    ensures HighRevenue([c, d]) == [d]
  {
    assert [c, d][1..] == [d];
    assert [d][1..] == [];
  }

  /** The scatter points and the company bars describe the same companies:
      point `i` is bar `i`'s revenue against its profit. */
  lemma ScatterMatchesBars(cs: seq<Company>)
    ensures var bars := CompanyBars(cs);
            var pts := Scatter(cs).points;
            |pts| == |bars.revenue|
            && forall i :: 0 <= i < |pts| ==> pts[i].x == bars.revenue[i] && pts[i].y == bars.profit[i]
  {
  }

  /** The example of a single country: one bar labelled with the country,
      whose value is its company count. */
  lemma SingleCountryBar()
    ensures CountryChart(CompanyCount, [CountryEntry("US", CountryStats(3, 900.0, 300.0, 50))])
            == CountrySeries(CompanyCount, ["US"], [3.0])
  {
    var entries := [CountryEntry("US", CountryStats(3, 900.0, 300.0, 50))];
    var r := CountryChart(CompanyCount, entries);
    assert r.labels == ["US"];
    assert r.values == [3.0];
  }

  // --------------------------------------------------------------- dispatch

  /** The key each selector button stores in `activeChart`. */
  function Key(sel: Selection): (k: string)
    ensures k in Keys
  {
    match sel
    case CompanyBar => "companyBar"
    case CountryBar => "countryBar"
    case RevenuePie => "revenuePie"
    case ProfitPie => "profitPie"
    case EmployeesPie => "employeesPie"
    case RevenueVsProfit => "revenueVsProfit"
    case HighRevenueEmployees => "highRevenueEmployees"
  }

  /** The seven recognised keys. */
  const Keys: set<string> :=
    {"companyBar", "countryBar", "revenuePie", "profitPie", "employeesPie",
     "revenueVsProfit", "highRevenueEmployees"}

  /** The `renderActiveChart` switch: each recognised key selects its own
      chart, any other key falls back to the company bar chart. */
  function Choose(key: string): (r: Selection)
    ensures key in Keys ==> Key(r) == key
    ensures key !in Keys ==> r == CompanyBar
  {
    if key == "countryBar" then CountryBar
    else if key == "revenuePie" then RevenuePie
    else if key == "profitPie" then ProfitPie
    else if key == "employeesPie" then EmployeesPie
    else if key == "revenueVsProfit" then RevenueVsProfit
    else if key == "highRevenueEmployees" then HighRevenueEmployees
    else CompanyBar
  }

  /** Every selector button selects the chart it is labelled for, and no two
      buttons share a key. */
  lemma ChooseKeyRoundTrip(sel: Selection, other: Selection)
    ensures Choose(Key(sel)) == sel
    ensures Key(sel) in Keys
    ensures sel != other ==> Key(sel) != Key(other)
  {
  }

  /** The chart of a selection, built from the payload and its non-empty
      company list. */
  function Project(sel: Selection, p: ChartPayload, cs: seq<Company>): (r: Chart)
    ensures SelectionOf(r) == sel
    ensures sel == CompanyBar ==> r == CompanyBars(cs)
    ensures sel == CountryBar ==> r == CountryChart(CompanyCount, p.countryData)
    ensures sel == RevenuePie ==> r == CountryChart(TotalRevenue, p.countryData)
    ensures sel == ProfitPie ==> r == CountryChart(TotalProfit, p.countryData)
    ensures sel == EmployeesPie ==> r == CountryChart(TotalEmployees, p.countryData)
    ensures sel == RevenueVsProfit ==> r == Scatter(cs)
    ensures sel == HighRevenueEmployees ==> r == HighRevenueBars(p.highRevenueCompanies)
  {
    match sel
    case CompanyBar => CompanyBars(cs)
    case CountryBar => CountryChart(CompanyCount, p.countryData)
    case RevenuePie => CountryChart(TotalRevenue, p.countryData)
    case ProfitPie => CountryChart(TotalProfit, p.countryData)
    case EmployeesPie => CountryChart(TotalEmployees, p.countryData)
    case RevenueVsProfit => Scatter(cs)
    case HighRevenueEmployees => HighRevenueBars(p.highRevenueCompanies)
  }

  // ------------------------------------------------------------ view state

  datatype ChartsState = ChartsState(
    payload: Option<ChartPayload>,
    loading: bool,
    error: string,
    active: string)

  /** The state the view is created with: loading, company bars selected. */
  const Initial: ChartsState := ChartsState(None, true, "", "companyBar")

  /** What the view shows. */
  datatype ChartsView = LoadingScreen | ErrorScreen(message: string) | NoDataScreen | Showing(chart: Chart)

  /** The payload has a non-empty company list. */
  predicate HasCompanies(p: Option<ChartPayload>)
  {
    p.Some? && p.value.companies.Some? && |p.value.companies.value| > 0
  }

  /** The render guards in priority order: loading, then error, then a
      missing or empty payload; only then the selected chart. */
  function Render(s: ChartsState): (r: ChartsView)
    ensures r.LoadingScreen? <==> s.loading
    ensures r.ErrorScreen? <==> !s.loading && s.error != ""
    ensures r.ErrorScreen? ==> r.message == s.error
    ensures r.NoDataScreen? <==> !s.loading && s.error == "" && !HasCompanies(s.payload)
    ensures r.Showing? ==> SelectionOf(r.chart) == Choose(s.active)
    ensures r.Showing? ==> r.chart == Project(Choose(s.active), s.payload.value,
                                              s.payload.value.companies.value)
  {
    if s.loading then LoadingScreen
    else if s.error != "" then ErrorScreen(s.error)
    else if !HasCompanies(s.payload) then NoDataScreen
    else Showing(Project(Choose(s.active), s.payload.value, s.payload.value.companies.value))
  }

  /** A payload with no companies shows the "no data" state whatever chart
      is selected. */
  lemma NoDataForEverySelection(s: ChartsState, key: string)
    requires !s.loading && s.error == ""
    requires s.payload.Some? && s.payload.value.companies == Some([])
    ensures Render(s.(active := key)) == NoDataScreen
  {
  }

  // --------------------------------------------------------------- handlers

  /** Mounting: the payload is requested once. */
  function Mount(s: ChartsState): (r: Step<ChartsState>)
    ensures r.state.loading && r.state.(loading := s.loading) == s
    ensures r.effects == [Send(GetChartData)]
  {
    Step(s.(loading := true), [Send(GetChartData)])
  }

  /** The payload request settles. Success stores the payload; failure sets
      the error. Either way loading ends and the selection is kept. */
  function FetchSettled(s: ChartsState, o: Outcome<Option<ChartPayload>>): (r: ChartsState)
    ensures !r.loading && r.active == s.active
    ensures o.Ok? ==> r.payload == o.value && r.error == s.error
    ensures o.Err? ==> r.error == LoadError && r.payload == s.payload
  {
    match o
    case Ok(data) => s.(payload := data, loading := false)
    case Err(_) => s.(error := LoadError, loading := false)
  }

  /** A selector button: only the selection changes. */
  function Select(s: ChartsState, sel: Selection): (r: ChartsState)
    ensures Choose(r.active) == sel && r.active == Key(sel)
    ensures r.(active := s.active) == s
  {
    ChooseKeyRoundTrip(sel, sel);
    s.(active := Key(sel))
  }

  /** Everything that can happen to a mounted charts view. */
  datatype Event = Fetched(outcome: Outcome<Option<ChartPayload>>) | Selected(selection: Selection)

  /** The view reacting to one event: the fetch settling, or a selector
      button. Neither sends anything. */
  function Dispatch(s: ChartsState, e: Event): (r: Step<ChartsState>)
    ensures r.effects == []
    ensures e.Fetched? ==> r.state == FetchSettled(s, e.outcome)
    ensures e.Selected? ==> r.state == Select(s, e.selection)
  {
    match e
    case Fetched(o) => Step(FetchSettled(s, o), [])
    case Selected(sel) => Step(Select(s, sel), [])
  }

  /** The payload is fetched only on mount: no later event sends a request,
      and switching charts changes nothing but the selection. */
  lemma FetchOnlyOnMount(s: ChartsState, e: Event)
    ensures Sent(Dispatch(s, e).effects) == []
    ensures e.Selected? ==> Dispatch(s, e).state.(active := s.active) == s
  {
  }

  /** After the fetch the view never shows the loading screen again, and a
      failed fetch shows its error whatever chart is selected. */
  lemma SettledFetchShows(s: ChartsState, o: Outcome<Option<ChartPayload>>, sel: Selection)
    ensures !Render(FetchSettled(s, o)).LoadingScreen?
    ensures o.Err? ==> Render(Select(FetchSettled(s, o), sel)) == ErrorScreen(LoadError)
  {
  }

  /** The view starts on the loading screen with the company bars selected,
      so the company bars are what shows once a non-empty payload arrives. */
  lemma InitialState(p: ChartPayload)
    requires p.companies.Some? && |p.companies.value| > 0
    ensures Choose(Initial.active) == CompanyBar
    ensures Render(Initial) == LoadingScreen
    ensures Render(FetchSettled(Initial, Ok(Some(p)))) == Showing(CompanyBars(p.companies.value))
  {
  }
}

=== FILE: common.dfy ===
/** Small shared vocabulary: optional values, the outcome of one remote call,
    and the two sequence reshapings (map and filter) every view uses. */
module Common {

  /** A value that may be absent (`null` / `undefined` in the front-end). */
  datatype Option<+T> = None | Some(value: T)

  /** The settled result of one remote call: the response body, or a failure.
      A failure may carry the `error` field of the server's response body. */
  datatype Outcome<+T> = Ok(value: T) | Err(serverError: Option<string>)

  /** Element-wise image of a sequence, in order (`Array.prototype.map`). */
  function Map<A, B>(f: A -> B, s: seq<A>): (r: seq<B>)
    ensures |r| == |s|
    ensures forall i :: 0 <= i < |s| ==> r[i] == f(s[i])
  {
    if |s| == 0 then [] else [f(s[0])] + Map(f, s[1..])
  }

  /** Number of elements of `s` satisfying `p`. */
  function Count<T>(p: T -> bool, s: seq<T>): nat
  {
    if |s| == 0 then 0 else (if p(s[0]) then 1 else 0) + Count(p, s[1..])
  }

  /** The elements of `s` satisfying `p`, in their original order
      (`Array.prototype.filter`). */
  function Filter<T>(p: T -> bool, s: seq<T>): (r: seq<T>)
    ensures |r| == Count(p, s) <= |s|
    ensures forall i :: 0 <= i < |r| ==> r[i] in s && p(r[i])
    ensures forall i :: 0 <= i < |s| && p(s[i]) ==> s[i] in r
  {
    if |s| == 0 then []
    else if p(s[0]) then [s[0]] + Filter(p, s[1..])
    else Filter(p, s[1..])
  }

  /** Filtering distributes over concatenation: the kept elements of `a` come
      before the kept elements of `b`, so the original order is preserved. */
  lemma {:induction false} FilterAppend<T>(p: T -> bool, a: seq<T>, b: seq<T>)
    ensures Filter(p, a + b) == Filter(p, a) + Filter(p, b)
  {
    if |a| == 0 {
      assert a + b == b;
    } else {
      assert (a + b)[1..] == a[1..] + b;
      FilterAppend(p, a[1..], b);
    }
  }

  /** A filter that rejects nothing is the identity. */
  lemma {:induction false} FilterKeepsAll<T>(p: T -> bool, s: seq<T>)
    requires forall i :: 0 <= i < |s| ==> p(s[i])
    ensures Filter(p, s) == s
  {
    if |s| > 0 {
      FilterKeepsAll(p, s[1..]);
    }
  }

  /** Filtering twice by the same predicate is filtering once. */
  lemma {:induction false} FilterIdempotent<T>(p: T -> bool, s: seq<T>)
    ensures Filter(p, Filter(p, s)) == Filter(p, s)
  {
    var r := Filter(p, s);
    FilterKeepsAll(p, r);
  }

  /** What a filter keeps (`p`) and what it drops (`q`, the complement) together make up the input:
      nothing is lost and nothing is duplicated. */
  lemma {:induction false} FilterPartition<T>(p: T -> bool, q: T -> bool, s: seq<T>)
    requires forall x :: q(x) == !p(x)
    ensures multiset(Filter(p, s)) + multiset(Filter(q, s)) == multiset(s)
  {
    if |s| > 0 {
      FilterPartition(p, q, s[1..]);
      assert s == [s[0]] + s[1..];
    }
  }
}

=== FILE: data_table.dfy ===
/** The record table view: the displayed company collection, the load error,
    the generation controller with its count input, and the create/edit form.

    Each handler is one sequential step. An asynchronous handler takes the
    settled outcome of its remote call as an argument; a user confirmation
    dialog is a boolean argument; a new interval handle is supplied by the
    caller, as the browser supplies it. */
module DataTable {
  import opened Common
  import opened Records
  import opened Forms
  import opened Effects
  import opened Generation

  /** The message shown when loading the collection fails. */
  const FetchError: string := "Failed to fetch company data"

  datatype TableState = TableState(
    companies: seq<Company>,
    loading: bool,
    error: string,
    genCount: int,
    gen: Controller,
    showForm: bool,
    editingId: Option<int>,
    draft: Draft)

  /** The state the view is created with. */
  const Initial: TableState :=
    TableState([], true, "", DefaultCount, Idle, false, None, Blank)

  /** `if (editingId)`: the form is in update mode only while the id is
      truthy, that is present and different from 0. */
  function Editing(id: Option<int>): (b: bool)
    ensures id.None? ==> !b
    ensures id == Some(0) ==> !b
    ensures id.Some? && id.value != 0 ==> b
  {
    id.Some? && id.value != 0
  }

  // ---------------------------------------------------------------- loading

  /** Start of a load (on mount): the loading flag goes up and the list is
      requested; nothing else changes. */
  function BeginLoad(s: TableState): (r: Step<TableState>)
    ensures r.state.loading
    ensures r.state.(loading := s.loading) == s
    ensures r.effects == [Send(GetCompanies)]
  {
    Step(s.(loading := true), [Send(GetCompanies)])
  }

  /** A load settles. Success replaces the whole collection and clears the
      error; failure sets the error and keeps the previous records on screen.
      Either way loading ends and nothing else changes. */
  function LoadSettled(s: TableState, o: Outcome<seq<Company>>): (r: TableState)
    ensures !r.loading
    ensures o.Ok? ==> r.companies == o.value && r.error == ""
    ensures o.Err? ==> r.companies == s.companies && r.error == FetchError
    ensures r.(companies := s.companies, loading := s.loading, error := s.error) == s
  {
    match o
    case Ok(data) => s.(companies := data, error := "", loading := false)
    case Err(_) => s.(error := FetchError, loading := false)
  }

  // ------------------------------------------------------------- generation

  /** The "Generate Data" button: starts a run requesting `genCount` records
      at once and then at every interval. */
  function StartGeneration(s: TableState, newHandle: Handle): (r: Step<TableState>)
    ensures r.state.gen.generating && r.state.gen.handle == Some(newHandle)
    ensures Sent(r.effects) == [GenerateData(s.genCount)]
    ensures forall live: map<Handle, Request> {:trigger Schedule(live, r.effects)} ::
              Schedule(live, r.effects) == live[newHandle := GenerateData(s.genCount)]
    ensures r.state.(gen := s.gen) == s
  {
    var st := Start(s.gen, s.genCount, newHandle);
    Step(s.(gen := st.state), st.effects)
  }

  /** The "Stop Generation" button. */
  function StopGeneration(s: TableState): (r: Step<TableState>)
    ensures r.state.gen == Idle
    ensures Sent(r.effects) == []
    ensures forall live: map<Handle, Request> {:trigger Schedule(live, r.effects)} ::
              Schedule(live, r.effects)
              == (if s.gen.handle.Some? then live - {s.gen.handle.value} else live)
    ensures r.state.(gen := s.gen) == s
  {
    var st := Stop(s.gen);
    Step(s.(gen := st.state), st.effects)
  }

  /** A batch request settles. Success appends the batch after the existing
      records, in response order, and changes nothing else. Failure takes the
      stop path: the held interval is cleared, generation stops, and the
      collection is left as it was. */
  function BatchSettled(s: TableState, o: Outcome<seq<Company>>): (r: Step<TableState>)
    ensures o.Ok? ==> && |r.state.companies| == |s.companies| + |o.value|
                      && r.state.companies[..|s.companies|] == s.companies
                      && r.state.companies[|s.companies|..] == o.value
                      && r.state.(companies := s.companies) == s
                      && r.effects == []
    ensures o.Err? ==> && r.state.gen == Idle
                       && r.state.(gen := s.gen) == s
                       && Sent(r.effects) == []
                       && r == StopGeneration(s)
  {
    match o
    case Ok(batch) => Step(s.(companies := s.companies + batch), [])
    case Err(_) => StopGeneration(s)
  }

  /** The count input changes. The input is disabled while generating, so
      during a run the count cannot change; otherwise it takes the parsed
      value, with unparsable input and 0 read as 1. */
  function CountChanged(s: TableState, p: ParsedInt): (r: TableState)
    ensures s.gen.generating ==> r == s
    ensures !s.gen.generating ==> r.genCount == CountFromInput(p) && r.(genCount := s.genCount) == s
  {
    if s.gen.generating then s else s.(genCount := CountFromInput(p))
  }

  // ------------------------------------------------------------------- form

  /** The form is cleared: every field empty, no record being edited, the
      form hidden. Nothing else changes. */
  function ResetForm(s: TableState): (r: TableState)
    ensures r.draft == Blank && r.editingId == None && !r.showForm
    ensures r.(draft := s.draft, editingId := s.editingId, showForm := s.showForm) == s
  {
    s.(draft := Blank, editingId := None, showForm := false)
  }

  /** The "Add Company" / "Hide Form" button: the form is cleared, then its
      visibility is the opposite of what it was before the click (the later
      visibility update wins over the one made by the reset). */
  function ToggleForm(s: TableState): (r: TableState)
    ensures r.draft == Blank && r.editingId == None
    ensures r.showForm == !s.showForm
    ensures r.(draft := s.draft, editingId := s.editingId, showForm := s.showForm) == s
  {
    ResetForm(s).(showForm := !s.showForm)
  }

  /** The "Edit" button of a row: the form opens on that record. */
  function Edit(s: TableState, c: Company): (r: TableState)
    ensures r.editingId == Some(c.id) && r.showForm
    ensures forall f :: Get(r.draft, f) == Get(FromCompany(c), f)
    ensures r.(draft := s.draft, editingId := s.editingId, showForm := s.showForm) == s
  {
    s.(editingId := Some(c.id), draft := FromCompany(c), showForm := true)
  }

  /** An input of the form changes: only the named field of the draft takes
      the new value. */
  function FieldChanged(s: TableState, f: Field, v: FieldValue): (r: TableState)
    ensures Get(r.draft, f) == v
    ensures forall g :: g != f ==> Get(r.draft, g) == Get(s.draft, g)
    ensures r.(draft := s.draft) == s
  {
    s.(draft := Set(s.draft, f, v))
  }

  /** The request a submit sends: an update of the edited record when an id
      is truthy, a create otherwise. The conversion of the text fields to
      numbers before sending is not modelled; the draft stands for it. */
  function SubmitRequest(s: TableState): (q: Request)
    ensures q.UpdateCompany? <==> Editing(s.editingId)
    ensures q.CreateCompany? <==> !Editing(s.editingId)
    ensures q.UpdateCompany? ==> q.id == s.editingId.value && q.data == s.draft
    ensures q.CreateCompany? ==> q.data == s.draft
  {
    if Editing(s.editingId) then UpdateCompany(s.editingId.value, s.draft)
    else CreateCompany(s.draft)
  }

  /** The form is submitted and its request settles with the server's
      canonical record or a failure. Success splices the record in (replace
      by id when updating, append when creating) and clears the form. Failure
      changes nothing: the form stays open with its contents. */
  function Submit(s: TableState, o: Outcome<Company>): (r: Step<TableState>)
    ensures r.effects == [Send(SubmitRequest(s))]
    ensures o.Err? ==> r.state == s
    ensures o.Ok? && Editing(s.editingId) ==>
              && |r.state.companies| == |s.companies|
              && (forall i :: 0 <= i < |s.companies| && s.companies[i].id == s.editingId.value
                    ==> r.state.companies[i] == o.value)
              && (forall i :: 0 <= i < |s.companies| && s.companies[i].id != s.editingId.value
                    ==> r.state.companies[i] == s.companies[i])
    ensures o.Ok? && !Editing(s.editingId) ==> r.state.companies == s.companies + [o.value]
    ensures o.Ok? ==> && r.state.draft == Blank && r.state.editingId == None && !r.state.showForm
                      && r.state.(companies := s.companies, draft := s.draft,
                                  editingId := s.editingId, showForm := s.showForm) == s
  {
    var effs := [Send(SubmitRequest(s))];
    match o
    case Err(_) => Step(s, effs)
    case Ok(rec) =>
      var cs := if Editing(s.editingId) then ReplaceId(s.companies, s.editingId.value, rec)
                else s.companies + [rec];
      Step(ResetForm(s.(companies := cs)), effs)
  }

  // ----------------------------------------------------------------- delete

  /** The "Delete" button of a row. Without confirmation nothing happens and
      nothing is sent. With confirmation the delete is sent; its success
      removes every record carrying the id, its failure changes nothing. */
  function Delete(s: TableState, id: int, confirmed: bool, o: Outcome<()>): (r: Step<TableState>)
    ensures !confirmed ==> r == Step(s, [])
    ensures confirmed ==> Sent(r.effects) == [DeleteCompany(id)]
    ensures confirmed && o.Ok? ==>
              && (forall i :: 0 <= i < |r.state.companies| ==> r.state.companies[i].id != id)
              && r.state.companies == RemoveId(s.companies, id)
              && r.state.(companies := s.companies) == s
    ensures o.Err? ==> r.state == s
  {
    if !confirmed then Step(s, [])
    else
      var effs := [Send(DeleteCompany(id))];
      match o
      case Ok(_) => Step(s.(companies := RemoveId(s.companies, id)), effs)
      case Err(_) => Step(s, effs)
  }

  // ----------------------------------------------------------------- render

  /** What the table view shows: a loading screen, or the page with an
      optional error banner and the rows (none: the "no data" message). */
  datatype TableView = LoadingScreen | Table(banner: Option<string>, rows: seq<Company>)

  function View(s: TableState): (r: TableView)
    ensures r.LoadingScreen? <==> s.loading && |s.companies| == 0
    ensures r.Table? ==> r.rows == s.companies
    ensures r.Table? ==> (r.banner.Some? <==> s.error != "")
    ensures r.Table? && r.banner.Some? ==> r.banner.value == s.error
  {
    if s.loading && |s.companies| == 0 then LoadingScreen
    else Table(if s.error != "" then Some(s.error) else None, s.companies)
  }

  /** A failed load keeps whatever records are held, under the error banner:
      they are never cleared. On the page the load runs once, on mount, with
      no records yet, so the banner then sits above the "no data" message. */
  lemma FailedLoadKeepsRows(s: TableState, msg: Option<string>)
    ensures View(LoadSettled(s, Err(msg))) == Table(Some(FetchError), s.companies)
  {
  }

  /** The form is headed "Edit Company" exactly when its submit sends an
      update. */
  lemma HeadingMatchesRequest(s: TableState)
    ensures (FormHeading(s) == "Edit Company") <==> SubmitRequest(s).UpdateCompany?
  {
  }

  /** The form's heading: it names an edit exactly while an id is truthy. */
  function FormHeading(s: TableState): (h: string)
    ensures h == "Edit Company" <==> Editing(s.editingId)
    ensures h == "Add New Company" <==> !Editing(s.editingId)
  {
    if Editing(s.editingId) then "Edit Company" else "Add New Company"
  }

  /** Editing a record and submitting the unchanged form with the server's
      success replaces that record in place. With server-unique ids this is
      a single-position update; id 0 is not truthy, so it is excluded. */
  lemma EditThenSubmitReplaces(s: TableState, k: int, rec: Company)
    requires UniqueIds(s.companies)
    requires 0 <= k < |s.companies| && s.companies[k].id != 0
    ensures var e := Edit(s, s.companies[k]);
            Submit(e, Ok(rec)).state.companies == s.companies[k := rec]
  {
    ReplaceUniqueId(s.companies, k, rec);
  }

  /** A create appends the server's record and nothing else: deleting the new
      record's id (carried by no earlier record) gives back the collection
      from before the create. */
  lemma CreateThenDelete(s: TableState, rec: Company)
    requires !Editing(s.editingId)
    requires Absent(s.companies, rec.id)
    ensures RemoveId(Submit(s, Ok(rec)).state.companies, rec.id) == s.companies
  {
    RemoveIdKeepsOrder(s.companies, [rec], rec.id);
    RemoveAbsentId(s.companies, rec.id);
  }

  /** The form buttons undo each other: two clicks of "Add Company" / "Hide
      Form" leave a cleared form as visible as before, and Cancel after
      either leaves the same hidden, cleared form as Cancel alone. */
  lemma FormButtonsUndo(s: TableState)
    ensures ToggleForm(ToggleForm(s)) == ResetForm(s).(showForm := s.showForm)
    ensures ResetForm(ToggleForm(s)) == ResetForm(s)
    ensures ResetForm(ResetForm(s)) == ResetForm(s)
  {
  }
}

=== FILE: data_table_page.dfy ===
/** The record table as the browser sees it: the view state together with the
    browser's live intervals, driven by any sequence of user actions, timer
    firings and settled requests. The property kept throughout is that of the
    generation controller: at most one repeating task, and none after
    tear-down. */
module DataTablePage {
  import opened Common
  import opened Records
  import opened Forms
  import opened Effects
  import opened Generation
  import opened DataTable

  datatype Page = Page(view: TableState, live: map<Handle, Request>)

  /** Everything that can happen to a mounted table. "Generate Data" is shown
      only while idle and "Stop Generation" only while generating, so a click
      on the other one cannot happen. The loading screen shows no buttons at
      all, but the model still accepts the other clicks while it is up: an
      over-approximation of what a user can do, harmless for the properties
      proved here, which hold after any sequence of events. */
  datatype Event =
    | Loaded(companies: Outcome<seq<Company>>)
    | StartClicked(newHandle: Handle)
    | StopClicked
    | IntervalFired(handle: Handle)
    | BatchArrived(batch: Outcome<seq<Company>>)
    | CountInput(parsed: ParsedInt)
    | EditClicked(company: Company)
    | DeleteClicked(id: int, confirmed: bool, deleted: Outcome<()>)
    | FieldInput(field: Field, value: FieldValue)
    | FormSubmitted(saved: Outcome<Company>)
    | CancelClicked
    | ToggleClicked

  /** Carries out a view step: the browser applies its timer effects. */
  function Apply(p: Page, st: Step<TableState>): Step<Page>
  {
    Step(Page(st.state, Schedule(p.live, st.effects)), st.effects)
  }

  /** The page reacting to one event. A click on a button that is not on
      screen does nothing; a firing interval sends the request it was set
      with; every other event runs its handler and the browser carries out
      the handler's timer effects. */
  function Dispatch(p: Page, e: Event): (r: Step<Page>)
    ensures e.Loaded? ==> r == Step(p.(view := LoadSettled(p.view, e.companies)), [])
    ensures e.StartClicked? && p.view.gen.generating ==> r == Step(p, [])
    ensures e.StartClicked? && !p.view.gen.generating ==>
              && r.state.view == StartGeneration(p.view, e.newHandle).state
              && r.state.view.gen.generating && Sent(r.effects) == [GenerateData(p.view.genCount)]
              && r.state.live == p.live[e.newHandle := GenerateData(p.view.genCount)]
    ensures e.StopClicked? && !p.view.gen.generating ==> r == Step(p, [])
    ensures e.StopClicked? && p.view.gen.generating ==>
              && r.state.view == StopGeneration(p.view).state && r.state.view.gen == Idle
              && r.state.live == (if p.view.gen.handle.Some? then p.live - {p.view.gen.handle.value}
                                  else p.live)
    ensures e.BatchArrived? ==> r == Apply(p, BatchSettled(p.view, e.batch))
    ensures e.CountInput? ==> r == Step(p.(view := CountChanged(p.view, e.parsed)), [])
    ensures e.EditClicked? ==> r == Step(p.(view := Edit(p.view, e.company)), [])
    ensures e.DeleteClicked? ==> r == Apply(p, Delete(p.view, e.id, e.confirmed, e.deleted))
    ensures e.FieldInput? ==> r == Step(p.(view := FieldChanged(p.view, e.field, e.value)), [])
    ensures e.FormSubmitted? ==> r == Apply(p, Submit(p.view, e.saved))
    ensures e.CancelClicked? ==> r == Step(p.(view := ResetForm(p.view)), [])
    ensures e.ToggleClicked? ==> r == Step(p.(view := ToggleForm(p.view)), [])
    ensures e.IntervalFired? ==> r.state == p
    ensures e.IntervalFired? ==>
              Sent(r.effects) == if e.handle in p.live then [p.live[e.handle]] else []
    ensures !e.IntervalFired? ==> r.state.live == Schedule(p.live, r.effects)
  {
    var s := p.view;
    match e
    case Loaded(o) => Apply(p, Step(LoadSettled(s, o), []))
    case StartClicked(h) =>
      if s.gen.generating then Step(p, []) else Apply(p, StartGeneration(s, h))
    case StopClicked =>
      if !s.gen.generating then Step(p, []) else Apply(p, StopGeneration(s))
    case IntervalFired(h) =>
      if h in p.live then Step(p, [Send(p.live[h])]) else Step(p, [])
    case BatchArrived(o) => Apply(p, BatchSettled(s, o))
    case CountInput(n) => Apply(p, Step(CountChanged(s, n), []))
    case EditClicked(c) => Apply(p, Step(Edit(s, c), []))
    case DeleteClicked(id, ok, o) => Apply(p, Delete(s, id, ok, o))
    case FieldInput(f, v) => Apply(p, Step(FieldChanged(s, f, v), []))
    case FormSubmitted(o) => Apply(p, Submit(s, o))
    case CancelClicked => Apply(p, Step(ResetForm(s), []))
    case ToggleClicked => Apply(p, Step(ToggleForm(s), []))
  }

  /** The page after a sequence of events. */
  function Run(p: Page, events: seq<Event>): Page
    decreases |events|
  {
    if |events| == 0 then p else Run(Dispatch(p, events[0]).state, events[1..])
  }

  /** The page just after mounting: the initial view, the load under way, no
      interval live. */
  function Mounted(): (r: Step<Page>)
    ensures r.state.view.loading && r.state.live == map[]
    ensures Sent(r.effects) == [GetCompanies]
  {
    Apply(Page(Initial, map[]), BeginLoad(Initial))
  }

  /** Tear-down of the page (the effect cleanup on unmount). */
  function Unmount(p: Page): (r: seq<Effect>)
    ensures Sent(r) == []
  {
    Teardown(p.view.gen)
  }

  /** The controller and the browser agree (see `Generation.Consistent`),
      with the interval requesting the count currently in the input. */
  ghost predicate Inv(p: Page)
  {
    Consistent(p.view.gen, p.live, p.view.genCount)
  }

  /** A step that sets and clears no interval leaves the browser's table as
      it was. */
  lemma NoTimerStep(p: Page, st: Step<TableState>)
    requires forall i :: 0 <= i < |st.effects| ==> st.effects[i].Send?
    ensures Apply(p, st).state.live == p.live
  {
    ScheduleIgnoresOthers(p.live, st.effects);
  }

  /** Every event keeps the controller consistent with the browser. */
  lemma DispatchKeepsInv(p: Page, e: Event)
    requires Inv(p)
    ensures Inv(Dispatch(p, e).state)
  {
    var s := p.view;
    match e
    case Loaded(o) =>
      NoTimerStep(p, Step(LoadSettled(s, o), []));
    case StartClicked(h) =>
      if !s.gen.generating {
        StartFromIdle(s.gen, p.live, s.genCount, h);
      }
    case StopClicked =>
      if s.gen.generating {
        StopEndsRun(s.gen, p.live, s.genCount);
      }
    case IntervalFired(h) =>
    case BatchArrived(o) =>
      if o.Err? {
        StopEndsRun(s.gen, p.live, s.genCount);
      }
    case CountInput(n) =>
      NoTimerStep(p, Step(CountChanged(s, n), []));
    case EditClicked(c) =>
      NoTimerStep(p, Step(Edit(s, c), []));
    case DeleteClicked(id, ok, o) =>
      NoTimerStep(p, Delete(s, id, ok, o));
    case FieldInput(f, v) =>
      NoTimerStep(p, Step(FieldChanged(s, f, v), []));
    case FormSubmitted(o) =>
      NoTimerStep(p, Submit(s, o));
    case CancelClicked =>
      NoTimerStep(p, Step(ResetForm(s), []));
    case ToggleClicked =>
      NoTimerStep(p, Step(ToggleForm(s), []));
  }

  /** Any sequence of events keeps the controller consistent. */
  lemma {:induction false} RunKeepsInv(p: Page, events: seq<Event>)
    requires Inv(p)
    ensures Inv(Run(p, events))
    decreases |events|
  {
    if |events| > 0 {
      DispatchKeepsInv(p, events[0]);
      RunKeepsInv(Dispatch(p, events[0]).state, events[1..]);
    }
  }

  /** From mounting on, whatever happens: at most one repeating task is
      live, one is live exactly while generating, and tear-down leaves no
      interval behind. */
  lemma NoOrphanedInterval(events: seq<Event>)
    ensures var p := Run(Mounted().state, events);
            && |p.live| <= 1
            && (p.view.gen.generating <==> |p.live| == 1)
            && Schedule(p.live, Unmount(p)) == map[]
  {
    var p := Run(Mounted().state, events);
    RunKeepsInv(Mounted().state, events);
    AtMostOneTask(p.view.gen, p.live, p.view.genCount);
    TeardownLeavesNoTimer(p.view.gen, p.live, p.view.genCount);
  }

  /** Every tick of a run requests the count shown in the (disabled) input:
      the count is constant during a run. */
  lemma TickRequestsCurrentCount(p: Page, h: Handle)
    requires Inv(p)
    ensures Sent(Dispatch(p, IntervalFired(h)).effects)
            == if h in p.live then [GenerateData(p.view.genCount)] else []
  {
  }

  /** Start is reachable only while idle, so a click on it never leaves an
      earlier interval running. */
  lemma StartClickedKeepsOneTask(p: Page, h: Handle)
    requires Inv(p)
    ensures |Dispatch(p, StartClicked(h)).state.live| <= 1
  {
    DispatchKeepsInv(p, StartClicked(h));
    var q := Dispatch(p, StartClicked(h)).state;
    AtMostOneTask(q.view.gen, q.live, q.view.genCount);
  }

  /** A failed batch takes the stop path: the repeating task is cancelled
      and generation ends. */
  lemma BatchFailureEndsRun(p: Page, m: Option<string>)
    requires Inv(p)
    ensures Dispatch(p, BatchArrived(Err(m))).state.live == map[]
    ensures Dispatch(p, BatchArrived(Err(m))).state.view.gen == Idle
  {
    StopEndsRun(p.view.gen, p.live, p.view.genCount);
  }

  /** Starting from idle requests a batch at once, and the first tick of the
      new interval requests the same batch again: two requests, in that
      order. */
  lemma StartThenTick(p: Page, h: Handle)
    requires Inv(p) && !p.view.gen.generating
    ensures var q := Dispatch(p, StartClicked(h));
            Sent(q.effects + Dispatch(q.state, IntervalFired(h)).effects)
            == [GenerateData(p.view.genCount), GenerateData(p.view.genCount)]
  {
    var q := Dispatch(p, StartClicked(h));
    assert h in q.state.live && q.state.live[h] == GenerateData(p.view.genCount);
    SentAppend(q.effects, Dispatch(q.state, IntervalFired(h)).effects);
  }

  /** Only Start, Stop and a failed batch touch the browser's intervals:
      every other event, loads, deletes and saves included, leaves them as
      they were. */
  lemma OnlyGenerationTouchesIntervals(p: Page, e: Event)
    requires !e.StartClicked? && !e.StopClicked?
    requires e.BatchArrived? ==> e.batch.Ok?
    ensures Dispatch(p, e).state.live == p.live
  {
    var s := p.view;
    match e
    case DeleteClicked(id, ok, o) => NoTimerStep(p, Delete(s, id, ok, o));
    case FormSubmitted(o) => NoTimerStep(p, Submit(s, o));
    case _ =>
  }
}

=== FILE: effects.dfy ===
/** What the views ask of the outside world. A view handler does not perform
    I/O; it returns its new state together with the effects it triggered, in
    the order it triggered them: remote requests, interval timers set or
    cleared, and a delayed navigation. */
module Effects {
  import opened Common
  import opened Records
  import opened Forms

  /** An interval id as the browser hands it out (always a positive integer). */
  type Handle = h: int | h > 0 witness 1

  /** The file a user picked for bulk upload; its contents are opaque here. */
  datatype FileRef = FileRef(name: string)

  /** One call of the remote API client. */
  datatype Request =
    | GetCompanies
    | CreateCompany(data: Draft)
    | UpdateCompany(id: int, data: Draft)
    | DeleteCompany(id: int)
    | GenerateData(count: int)
    | UploadExcel(file: FileRef)
    | GetChartData

  datatype Effect =
    | Send(request: Request)
      /** schedules `task` to be sent every interval until the handle is cleared */
    | SetInterval(handle: Handle, task: Request)
    | ClearInterval(handle: Handle)
      /** navigates to `path` after a fixed delay */
    | RedirectLater(path: string)

  /** A view's state after a handler, with the effects the handler triggered. */
  datatype Step<S> = Step(state: S, effects: seq<Effect>)

  /** The remote requests among `effs`, in the order they are sent. */
  function Sent(effs: seq<Effect>): (r: seq<Request>)
    ensures |r| <= |effs|
    ensures forall i :: 0 <= i < |effs| && effs[i].Send? ==> effs[i].request in r
    ensures forall i :: 0 <= i < |r| ==> Send(r[i]) in effs
  {
    if |effs| == 0 then []
    else if effs[0].Send? then [effs[0].request] + Sent(effs[1..])
    else Sent(effs[1..])
  }

  /** The browser's table of live intervals (handle to the request it sends)
      after it has carried out `effs` in order. */
  function Schedule(live: map<Handle, Request>, effs: seq<Effect>): map<Handle, Request>
    decreases |effs|
  {
    if |effs| == 0 then live
    else
      var next := match effs[0]
        case SetInterval(h, task) => live[h := task]
        case ClearInterval(h) => live - {h}
        case _ => live;
      Schedule(next, effs[1..])
  }

  /** Effects that touch no timer leave the interval table as it was. */
  lemma {:induction false} ScheduleIgnoresOthers(live: map<Handle, Request>, effs: seq<Effect>)
    requires forall i :: 0 <= i < |effs| ==> !effs[i].SetInterval? && !effs[i].ClearInterval?
    ensures Schedule(live, effs) == live
  {
    if |effs| > 0 {
      ScheduleIgnoresOthers(live, effs[1..]);
    }
  }

  /** A request followed by a new interval adds exactly that interval. */
  lemma ScheduleSendThenSet(q: Request, h: Handle, task: Request)
    ensures forall live: map<Handle, Request> {:trigger Schedule(live, [Send(q), SetInterval(h, task)])} ::
              Schedule(live, [Send(q), SetInterval(h, task)]) == live[h := task]
  {
    forall live: map<Handle, Request>
      ensures Schedule(live, [Send(q), SetInterval(h, task)]) == live[h := task]
    {
      var effs := [Send(q), SetInterval(h, task)];
      assert effs[1..] == [SetInterval(h, task)];
      assert effs[1..][1..] == [];
      assert Schedule(live, effs[1..]) == Schedule(live[h := task], []);
    }
  }

  /** `Sent` keeps the order in which requests are triggered: the requests of
      a concatenation are those of the first part followed by those of the
      second. */
  lemma {:induction false} SentAppend(a: seq<Effect>, b: seq<Effect>)
    ensures Sent(a + b) == Sent(a) + Sent(b)
  {
    if |a| > 0 {
      assert (a + b)[1..] == a[1..] + b;
      SentAppend(a[1..], b);
    } else {
      assert a + b == b;
    }
  }
}

=== FILE: file_upload.dfy ===
/** The bulk-upload view: one selected file, a submit that sends it, and the
    messages that report the outcome. */
module FileUpload {
  import opened Common
  import opened Effects

  const NoFileError: string := "Please select a file to upload"
  const DefaultUploadError: string := "Error uploading file"
  const UploadSuccess: string := "File uploaded successfully!"

  /** Where a successful upload sends the user, after a fixed delay. */
  const RecordsPath: string := "/data"

  datatype UploadState = UploadState(
    file: Option<FileRef>,
    loading: bool,
    error: string,
    success: string)

  const Initial: UploadState := UploadState(None, false, "", "")

  /** The file input changes: the picked file (none when the picker was
      dismissed) is stored and the error is cleared. */
  function ChooseFile(s: UploadState, f: Option<FileRef>): (r: UploadState)
    ensures r.file == f && r.error == ""
    ensures r.loading == s.loading && r.success == s.success
  {
    s.(file := f, error := "")
  }

  /** The upload button is enabled exactly when no upload is in flight and a
      file is selected. */
  function CanSubmit(s: UploadState): (b: bool)
    ensures b <==> !s.loading && s.file.Some?
    ensures b ==> Sent(Submit(s).effects) == [UploadExcel(s.file.value)] && Submit(s).state.loading
  {
    !s.loading && s.file.Some?
  }

  /** The form is submitted. Without a file the error says so, nothing is
      sent and nothing else changes. With a file the messages are cleared,
      loading starts and the file is sent. */
  function Submit(s: UploadState): (r: Step<UploadState>)
    ensures s.file.None? ==> r.effects == [] && r.state == s.(error := NoFileError)
    ensures s.file.Some? ==> && r.state.loading && r.state.error == "" && r.state.success == ""
                             && r.state.file == s.file
                             && r.effects == [Send(UploadExcel(s.file.value))]
  {
    match s.file
    case None => Step(s.(error := NoFileError), [])
    case Some(f) => Step(s.(loading := true, error := "", success := ""), [Send(UploadExcel(f))])
  }

  /** The error text after a failed upload: the server's `error` field when it
      is a non-empty string, the generic message otherwise. */
  function UploadErrorMessage(serverError: Option<string>): (m: string)
    ensures m != ""
    ensures serverError.Some? && serverError.value != "" ==> m == serverError.value
    ensures serverError.None? || serverError.value == "" ==> m == DefaultUploadError
  {
    match serverError
    case Some(msg) => if msg != "" then msg else DefaultUploadError
    case None => DefaultUploadError
  }

  /** The upload settles. Success sets the success message and schedules the
      redirect to the records page; failure sets the error message. Either
      way loading ends and the file stays selected. */
  function UploadSettled(s: UploadState, o: Outcome<()>): (r: Step<UploadState>)
    ensures !r.state.loading && r.state.file == s.file
    ensures Sent(r.effects) == []
    ensures o.Ok? ==> r.state.success == UploadSuccess && r.state.error == s.error
                      && r.effects == [RedirectLater(RecordsPath)]
    ensures o.Err? ==> r.state.error == UploadErrorMessage(o.serverError)
                       && r.state.success == s.success && r.effects == []
  {
    match o
    case Ok(_) => Step(s.(success := UploadSuccess, loading := false), [RedirectLater(RecordsPath)])
    case Err(e) => Step(s.(error := UploadErrorMessage(e), loading := false), [])
  }

  /** An upload the button allows sends the file exactly once and disables
      the button until the upload settles, so it cannot be sent twice. */
  lemma EnabledSubmitSendsOnce(s: UploadState)
    requires CanSubmit(s)
    ensures Sent(Submit(s).effects) == [UploadExcel(s.file.value)]
    ensures !CanSubmit(Submit(s).state)
  {
  }

  /** A full attempt, submit then settle, always ends with loading off and
      exactly one of the two messages set. */
  lemma AttemptEndsSettled(s: UploadState, o: Outcome<()>)
    requires s.file.Some?
    ensures var r := UploadSettled(Submit(s).state, o).state;
            && !r.loading
            && (r.success != "" <==> o.Ok?)
            && (r.error != "" <==> o.Err?)
            && CanSubmit(r)
  {
  }

  /** The view starts with no file, so its button starts disabled and a
      submit only reports the missing file. */
  lemma InitialCannotSubmit()
    ensures !CanSubmit(Initial)
    ensures Submit(Initial) == Step(Initial.(error := NoFileError), [])
  {
  }

  /** Picking a file while no upload is in flight enables the button, and the
      submit then sends exactly the file picked. */
  lemma ChooseThenSubmit(s: UploadState, f: FileRef)
    requires !s.loading
    ensures CanSubmit(ChooseFile(s, Some(f)))
    ensures Sent(Submit(ChooseFile(s, Some(f))).effects) == [UploadExcel(f)]
  {
  }
}

=== FILE: forms.dfy ===
/** The record table's create/edit form draft: five named fields whose values
    are whatever the inputs (or the record being edited) put there. */
module Forms {
  import opened Records

  /** A field value as the view state holds it: text typed into an input, or
      a number copied from a record when editing starts. */
  datatype FieldValue = Text(text: string) | Number(number: real)

  /** The five inputs of the form, by their `name` attribute. */
  datatype Field = Name | Revenue | Profit | Employees | Country

  datatype Draft = Draft(
    name: FieldValue,
    revenue: FieldValue,
    profit: FieldValue,
    employees: FieldValue,
    country: FieldValue)

  /** The draft of a fresh form: every field the empty string. */
  const Blank: Draft := Draft(Text(""), Text(""), Text(""), Text(""), Text(""))

  function Get(d: Draft, f: Field): FieldValue
  {
    match f
    case Name => d.name
    case Revenue => d.revenue
    case Profit => d.profit
    case Employees => d.employees
    case Country => d.country
  }

  /** A field change (`{...prev, [name]: value}`): the named field takes the
      new value and every other field keeps its value. */
  function Set(d: Draft, f: Field, v: FieldValue): (r: Draft)
    ensures Get(r, f) == v
    ensures forall g :: g != f ==> Get(r, g) == Get(d, g)
  {
    match f
    case Name => d.(name := v)
    case Revenue => d.(revenue := v)
    case Profit => d.(profit := v)
    case Employees => d.(employees := v)
    case Country => d.(country := v)
  }

  /** The draft that editing `c` starts from: each field shows the record's
      value for it. */
  function FromCompany(c: Company): (r: Draft)
    ensures Get(r, Name) == Text(c.name) && Get(r, Country) == Text(c.country)
    ensures Get(r, Revenue) == Number(c.revenue) && Get(r, Profit) == Number(c.profit)
    ensures Get(r, Employees) == Number(c.employees as real)
  {
    Draft(Text(c.name), Number(c.revenue), Number(c.profit),
          Number(c.employees as real), Text(c.country))
  }

  /** Two drafts are equal exactly when they agree on every field, so the
      five fields are the whole of a draft. */
  lemma DraftExtensional(d: Draft, e: Draft)
    ensures d == e <==> forall f :: Get(d, f) == Get(e, f)
  {
    if forall f :: Get(d, f) == Get(e, f) {
      assert Get(d, Name) == Get(e, Name);
      assert Get(d, Revenue) == Get(e, Revenue);
      assert Get(d, Profit) == Get(e, Profit);
      assert Get(d, Employees) == Get(e, Employees);
      assert Get(d, Country) == Get(e, Country);
    }
  }

  /** Writing back the value a field already holds changes nothing, and a
      later change of the same field overrides an earlier one. */
  lemma SetLaws(d: Draft, f: Field, v: FieldValue, w: FieldValue)
    ensures Set(d, f, Get(d, f)) == d
    ensures Set(Set(d, f, v), f, w) == Set(d, f, w)
  {
    DraftExtensional(Set(d, f, Get(d, f)), d);
    DraftExtensional(Set(Set(d, f, v), f, w), Set(d, f, w));
  }
}

=== FILE: generation.dfy ===
/** The generation controller of the record table: a repeating "request a
    batch of synthetic records" task with explicit start and stop, and
    mandatory cancellation when the table is torn down.

    The controller's own state is the `generating` flag and the interval
    handle it keeps (`generationInterval.current`). The browser's side is the
    table of live intervals (see `Effects.Schedule`). */
module Generation {
  import opened Common
  import opened Effects

  datatype Controller = Controller(generating: bool, handle: Option<Handle>)

  /** The initial controller: not generating, no interval held. */
  const Idle: Controller := Controller(false, None)

  /** The count the table starts with. */
  const DefaultCount: int := 5

  /** The result of `parseInt` on the count input's text. */
  datatype ParsedInt = NotANumber | Parsed(value: int)

  /** The new count after the count input changes (`parseInt(..) || 1`): an
      unparsable entry or a zero becomes 1, any other parsed value is kept,
      negative values included. */
  function CountFromInput(p: ParsedInt): (r: int)
    ensures r != 0
    ensures p.Parsed? && p.value != 0 ==> r == p.value
    ensures p.NotANumber? || p.value == 0 ==> r == 1
  {
    match p
    case NotANumber => 1
    case Parsed(v) => if v == 0 then 1 else v
  }

  /** Starting generation: the flag goes up, one batch is requested at once,
      and one interval that repeats the same request is set and its handle
      kept. Whatever handle was held before is overwritten. */
  function Start(c: Controller, count: int, newHandle: Handle): (r: Step<Controller>)
    ensures r.state.generating && r.state.handle == Some(newHandle)
    ensures Sent(r.effects) == [GenerateData(count)]
    ensures forall live: map<Handle, Request> {:trigger Schedule(live, r.effects)} ::
              Schedule(live, r.effects) == live[newHandle := GenerateData(count)]
  {
    ScheduleSendThenSet(GenerateData(count), newHandle, GenerateData(count));
    Step(Controller(true, Some(newHandle)),
         [Send(GenerateData(count)), SetInterval(newHandle, GenerateData(count))])
  }

  /** Stopping generation: a held interval is cleared and forgotten, the flag
      goes down, and nothing is requested. */
  function Stop(c: Controller): (r: Step<Controller>)
    ensures r.state == Idle
    ensures Sent(r.effects) == []
    ensures forall live: map<Handle, Request> {:trigger Schedule(live, r.effects)} ::
              Schedule(live, r.effects)
              == (if c.handle.Some? then live - {c.handle.value} else live)
  {
    match c.handle
    case Some(h) => Step(Idle, [ClearInterval(h)])
    case None => Step(Idle, [])
  }

  /** Tear-down of the host view: a held interval is cleared. */
  function Teardown(c: Controller): (r: seq<Effect>)
    ensures Sent(r) == []
    ensures forall live: map<Handle, Request> {:trigger Schedule(live, r)} ::
              Schedule(live, r)
              == (if c.handle.Some? then live - {c.handle.value} else live)
  {
    match c.handle
    case Some(h) => [ClearInterval(h)]
    case None => []
  }

  /** The controller and the browser agree: while idle no interval of this
      view is live, while generating exactly one is, it is the held handle,
      and it requests batches of `count` records. */
  ghost predicate Consistent(c: Controller, live: map<Handle, Request>, count: int)
  {
    match c.handle
    case None => !c.generating && live == map[]
    case Some(h) => c.generating && live == map[h := GenerateData(count)]
  }

  /** At most one repeating task exists whenever the controller is consistent. */
  lemma AtMostOneTask(c: Controller, live: map<Handle, Request>, count: int)
    requires Consistent(c, live, count)
    ensures |live| <= 1
    ensures c.generating <==> |live| == 1
  {
    if c.handle.Some? {
      assert live.Keys == {c.handle.value};
    }
  }

  /** Start from idle keeps the controller consistent. */
  lemma StartFromIdle(c: Controller, live: map<Handle, Request>, count: int, newHandle: Handle)
    requires Consistent(c, live, count) && !c.generating
    ensures Consistent(Start(c, count, newHandle).state, Schedule(live, Start(c, count, newHandle).effects), count)
  {
  }

  /** Stop keeps the controller consistent and ends every repeating task. */
  lemma StopEndsRun(c: Controller, live: map<Handle, Request>, count: int)
    requires Consistent(c, live, count)
    ensures Consistent(Stop(c).state, Schedule(live, Stop(c).effects), count)
    ensures Schedule(live, Stop(c).effects) == map[]
  {
    var r := Stop(c);
    if c.handle.Some? {
      assert Schedule(live, r.effects) == live - {c.handle.value};
      assert (live - {c.handle.value}).Keys == {};
    }
  }

  /** Stopping twice is stopping once: the second stop finds nothing to clear. */
  lemma StopIdempotent(c: Controller)
    ensures Stop(Stop(c).state) == Step(Stop(c).state, [])
  {
  }

  /** Tear-down of a consistent controller leaves no live interval behind. */
  lemma TeardownLeavesNoTimer(c: Controller, live: map<Handle, Request>, count: int)
    requires Consistent(c, live, count)
    ensures Schedule(live, Teardown(c)) == map[]
  {
    if c.handle.Some? {
      assert (live - {c.handle.value}).Keys == {};
    }
  }

  /** Why start must be unreachable while generating: a second start
      overwrites the held handle, and the first interval keeps running with
      nothing left to clear it. */
  lemma StartWhileRunningOrphans(c: Controller, live: map<Handle, Request>, count: int, newHandle: Handle)
    requires Consistent(c, live, count) && c.generating
    requires newHandle != c.handle.value
    ensures var after := Schedule(live, Start(c, count, newHandle).effects);
            |after| == 2 && c.handle.value in after
            && Start(c, count, newHandle).state.handle == Some(newHandle)
  {
    var after := Schedule(live, Start(c, count, newHandle).effects);
    assert after.Keys == {c.handle.value, newHandle};
  }
}

=== FILE: records.dfy ===
/** The company record and the two list edits the record table performs on it:
    removing every record with a given id (after a delete) and replacing every
    record with a given id (after an update). */
module Records {
  import opened Common

  /** One company as the server returns it. The id is server-assigned and
      opaque; revenue and profit are the parsed decimal amounts. */
  datatype Company = Company(
    id: int,
    name: string,
    revenue: real,
    profit: real,
    employees: int,
    country: string)

  /** Ids are pairwise distinct. The table presumes this: it keys its rows
      by id. */
  ghost predicate UniqueIds(cs: seq<Company>)
  {
    forall i, j :: 0 <= i < j < |cs| ==> cs[i].id != cs[j].id
  }

  /** True when no record carries `id`. */
  ghost predicate Absent(cs: seq<Company>, id: int)
  {
    forall i :: 0 <= i < |cs| ==> cs[i].id != id
  }

  function KeepsOther(id: int): Company -> bool
  {
    (c: Company) => c.id != id
  }

  /** The collection after a successful delete of `id`: every record whose id
      differs from `id` (strict inequality), in the original order. */
  function RemoveId(cs: seq<Company>, id: int): (r: seq<Company>)
    ensures |r| <= |cs|
    ensures forall i :: 0 <= i < |r| ==> r[i] in cs && r[i].id != id
    ensures forall i :: 0 <= i < |cs| && cs[i].id != id ==> cs[i] in r
  {
    Filter(KeepsOther(id), cs)
  }

  /** The per-record rule of an update: the record carrying `id` is replaced by
      the server's canonical record, every other record is left as it was. */
  function ReplaceOne(id: int, rec: Company): Company -> Company
  {
    (c: Company) => if c.id == id then rec else c
  }

  /** The collection after a successful update of `id` to `rec`. */
  function ReplaceId(cs: seq<Company>, id: int, rec: Company): (r: seq<Company>)
    ensures |r| == |cs|
    ensures forall i :: 0 <= i < |cs| && cs[i].id != id ==> r[i] == cs[i]
    ensures forall i :: 0 <= i < |cs| && cs[i].id == id ==> r[i] == rec
  {
    Map(ReplaceOne(id, rec), cs)
  }

  /** Deleting from a concatenation deletes from each part: records keep
      their relative order. */
  lemma RemoveIdKeepsOrder(a: seq<Company>, b: seq<Company>, id: int)
    ensures RemoveId(a + b, id) == RemoveId(a, id) + RemoveId(b, id)
  {
    FilterAppend(KeepsOther(id), a, b);
  }

  /** Deleting an id nobody carries changes nothing. */
  lemma RemoveAbsentId(cs: seq<Company>, id: int)
    requires Absent(cs, id)
    ensures RemoveId(cs, id) == cs
  {
    FilterKeepsAll(KeepsOther(id), cs);
  }

  /** With server-unique ids, deleting the id of the record at position `k`
      removes exactly that one entry and no other. */
  lemma RemoveUniqueId(cs: seq<Company>, k: int)
    requires UniqueIds(cs)
    requires 0 <= k < |cs|
    ensures RemoveId(cs, cs[k].id) == cs[..k] + cs[k+1..]
  {
    var id := cs[k].id;
    assert cs == cs[..k] + ([cs[k]] + cs[k+1..]);
    RemoveIdKeepsOrder(cs[..k], [cs[k]] + cs[k+1..], id);
    RemoveIdKeepsOrder([cs[k]], cs[k+1..], id);
    RemoveAbsentId(cs[..k], id);
    RemoveAbsentId(cs[k+1..], id);
    assert RemoveId([cs[k]], id) == [];
  }

  function HasId(id: int): Company -> bool
  {
    (c: Company) => c.id == id
  }

  /** Every record is either kept or carries the deleted id: nothing else is
      lost and nothing is duplicated. */
  lemma RemoveIdPartition(cs: seq<Company>, id: int)
    ensures multiset(RemoveId(cs, id)) + multiset(Filter(HasId(id), cs)) == multiset(cs)
  {
    FilterPartition(KeepsOther(id), HasId(id), cs);
  }

  /** With server-unique ids, updating the record at position `k` rewrites
      that one position and nothing else. */
  lemma ReplaceUniqueId(cs: seq<Company>, k: int, rec: Company)
    requires UniqueIds(cs)
    requires 0 <= k < |cs|
    ensures ReplaceId(cs, cs[k].id, rec) == cs[k := rec]
  {
  }

  /** An update that keeps the id leaves every other record untouched: once
      the updated id is deleted, the collections before and after agree. */
  lemma {:induction false} ReplaceThenRemove(cs: seq<Company>, id: int, rec: Company)
    requires rec.id == id
    ensures RemoveId(ReplaceId(cs, id, rec), id) == RemoveId(cs, id)
  {
    if |cs| > 0 {
      var r := ReplaceId(cs, id, rec);
      assert r == [r[0]] + r[1..];
      assert cs == [cs[0]] + cs[1..];
      assert r[1..] == ReplaceId(cs[1..], id, rec);
      ReplaceThenRemove(cs[1..], id, rec);
      RemoveIdKeepsOrder([r[0]], r[1..], id);
      RemoveIdKeepsOrder([cs[0]], cs[1..], id);
    }
  }
}
